=== FILE: README.md ===
# Seoul shuttle-bus map: route rendering and timetable core, in Dafny

This project models the pure logic of the shuttle-bus map application (`app.js`). That logic turns the static route dataset into what the map and the route panel show:

- **Station grouping.** `displayRoute` drops stations at `(0, 0)` or with a `NaN` coordinate. It groups the rest by location key, and each member carries its 1-based stop number. Groups come out in the order their keys first occur, as a JavaScript `Map` yields them. A group of several stations spreads its markers around a circle.
- **Polyline path.** The route line goes through every station not at exactly `(0, 0)`, so `NaN` coordinates stay in. With fewer than two such stations there is no line. When the first and last stations differ under `!==`, the first point is appended to close the loop.
- **Timetable merge.** `getAllScheduleTimes` returns a non-empty flat `schedule` as is. Otherwise it merges the per-vehicle lists, removes repeats and sorts them with JavaScript's default string order.
- **Next departure and the grid.** `findNextDeparture` returns the first time strictly after now. If there is none, it returns the first time of the list, which the panel labels "tomorrow", unless the clock passes midnight between its two reads (see Left out). The grid splits times into morning (hour < 12) and afternoon. It marks the next departure, and marks as past every time strictly before now.
- **Districts.** `Utils.getDistrict` reads a district name from the start of a route name with `^([가-힣]+구)` and memoises it. `getDistricts` lists the districts, without repeats and sorted. `getFilteredRoutes` keeps the routes of one district.

The model is built from immutable datatypes and pure functions. Each module matches one component:

- `wrappers.dfy`: `Option`.
- `seqs.dfy`: associativity of concatenation, for the order-keeping filters.
- `lex.dfy`: the string order and `[...new Set(xs)].sort()`.
- `stations.dfy`: stations, routes and the two validity filters.
- `grouping.dfy`: grouping and marker placement.
- `polyline.dfy`: the path.
- `times.dfy`: `parseTime`.
- `timetable.dfy`: merge and next departure.
- `schedule_panel.dfy`: the grid.
- `districts.dfy`: districts.
- `examples.dfy`: worked cases.

Some things the application reads from outside become parameters here:

- **Current time.** A clock reading is minutes since midnight. The panel reads the clock twice: once inside `findNextDeparture` (app.js:510) and once right after it (app.js:551). The grid takes both readings, `searchNow` and `labelNow`.
- **Location key.** The `toFixed(6)` string is a function parameter `key: (Num, Num) -> K`. The grouping lemmas therefore hold for every key function.
- **Memo caches.** Both caches are values that each call takes and returns.
- **Coordinates.** `Num` is `NaN`, the two infinities, or a real number. `-0` is folded into `0`, because `-0 === 0`. JavaScript's `===` on numbers is `JsEq`, under which `NaN` equals nothing.

Two details of the filters, as the code has them:

- Grouping drops a station when `isNaN` holds for a coordinate. `isNaN(Infinity)` is false, so infinite coordinates are kept.
- The polyline filter checks only for `(0, 0)`.

## Model

| member | source | states |
|---|---|---|
| Lex.Less | app.js:536 | the order of the default `sort`: the first differing character decides, and a proper prefix sorts first |
| Lex.SortUnique | app.js:536 | the de-duplicated, sorted timetable/district list is strictly ascending and holds exactly the input's entries |
| Lex.StrictlySortedUnique | app.js:536 | two strictly ascending lists with the same entries are equal, so the sorted list is determined by the set of times |
| Lex.SortUniqueDependsOnlyOnSet | app.js:536 | inputs with the same entries, in any order and with any repeats, give the same sorted list |
| Stations.JsEq | app.js:74 | number equality as `===`/`!==` decide it: equal finite or equal infinite values, and a NaN equals nothing, itself included |
| Stations.Groupable | app.js:329-330 | a station is kept for markers exactly when it is not at (0, 0) and neither coordinate is NaN; infinite coordinates are kept |
| Stations.OnPath | app.js:381-383 | a station is kept for the line exactly when it is not at (0, 0); NaN coordinates are kept |
| Stations.StationName | app.js:42-44 | the displayed name is the station's non-empty name, else "정류소 ID: " followed by its id, else "정류소"; it is never empty |
| Stations.GroupableIsOnPath | app.js:381-383 | every station kept for markers is kept for the line; the line keeps exactly the extra stations that have a NaN coordinate |
| Grouping.GroupStations | app.js:325-345 | the groups left after the forEach has visited every station; GroupStationsGrouped states the invariant they satisfy |
| Grouping.GroupStationsGrouped | app.js:325-345 | the finished groups satisfy the whole grouping invariant: non-empty groups, members tagged with their 1-based stop and their group's key, stop order, one group per key, groups by first member, every valid station placed |
| Grouping.GroupPrefixGrouped | app.js:327-345 | after each station the Map invariant holds: groups non-empty, members correctly tagged under their key, stop order inside groups, one group per key, groups by first member, every valid station placed |
| Grouping.GroupingPartition | app.js:327-345 | a station is in a group exactly when it is not at (0,0) and has no NaN coordinate, and then at exactly one place |
| Grouping.GroupMembersShareKey | app.js:335-344 | every member of a group is the station at its 1-based tag and has the group's key |
| Grouping.GroupMembership | app.js:335-344 | a group holds exactly the valid stations whose key is the group's key |
| Grouping.GroupingOrder | app.js:337-348 | member tags strictly increase inside a group; groups are ordered by first member, and each group starts at the first occurrence of its key |
| Grouping.GroupKeys | app.js:337-339 | a key has a group exactly when some valid station has that key |
| Grouping.MarkerTurn | app.js:353-377 | a lone station gets no offset; in a larger group every member's angle is a fraction of a full turn within [0, 1); the exact spacing is stated by MarkerTurnSpacing |
| Grouping.MarkerTurnsDistinct | app.js:354-356 | members of one group get strictly increasing, hence distinct, angles |
| Grouping.MarkerTurnSpacing | app.js:354-356 | the first member sits at angle zero and consecutive members are 1/n of a turn apart, so member i of n is at the fraction i/n (as an exact ratio) |
| Polyline.PathStations | app.js:381-383 | the filtered station list is never longer than the route's list |
| Polyline.PathStationsContents | app.js:381-383 | the line's stations are exactly the input stations that are not at (0,0) |
| Polyline.PathStationsAppend | app.js:381-383 | the line filter keeps the input order (filtering a concatenation filters each part) |
| Polyline.PathStationsSingle | app.js:381-383 | the only station dropped is one at exactly (0,0); a NaN coordinate does not drop it |
| Polyline.SimplePath | app.js:63-76 | no line for fewer than two stations; otherwise the stations' positions in order, plus the first position exactly when first and last differ under `!==`; the last point equals the first |
| Polyline.RoutePath | app.js:380-387 | a route has a line exactly when at least two stations are off (0,0); the line is those stations in order plus at most one closing point, and ends where it starts |
| Times.ParseTime | app.js:30-33 | `parseTime` as hours times 60 plus minutes, defined on digits, one colon, digits; its meaning on HH:MM times is given by ClockParts and ClockOrder |
| Times.Hours | app.js:558 | the hour part, `Number` of the digits before the colon |
| Times.ClockParts | app.js:30-33 | for an "HH:MM" string, `parseTime` reads the hour and minute digits |
| Times.ClockOrder | app.js:30-33 | on zero-padded "HH:MM" times the string order used to sort agrees with the order of parsed minutes, and equal minutes means equal strings |
| Timetable.Concat | app.js:531-534 | the flattened vehicle lists hold exactly the times some vehicle runs |
| Timetable.AllScheduleTimes | app.js:525-540 | a non-empty flat timetable comes back unchanged; otherwise, with vehicle lists, the result is strictly ascending and holds exactly the times of some vehicle; otherwise it is empty |
| Timetable.MergeOrderIndependent | app.js:530-536 | the merged timetable depends only on which times occur, not on vehicle order or assignment |
| Timetable.FirstAfter | app.js:513-518 | the position found is the first whose time is strictly after now; none means no time is after now |
| Timetable.NextDeparture | app.js:507-522 | empty timetable gives nothing; otherwise the first entry strictly after now, or the first entry when none is; the result is an entry of the timetable |
| Timetable.IsToday | app.js:579-580 | the next departure counts as today exactly when its parsed minutes are strictly after the clock reading |
| Timetable.NextDepartureAt | app.js:512-517 | an entry after now with no entry before it after now is the next departure |
| Timetable.TomorrowExactlyWhenNoneLeft | app.js:578-588 | for a single clock reading, the "tomorrow" label appears exactly when no entry is after it |
| Timetable.NextIsEarliestLater | app.js:507-522 | on a merged "HH:MM" timetable, today's next departure is the earliest time after now |
| Timetable.TwoReads | app.js:507-588 | for a departure found at one clock reading and labelled at a second reading whose minute value is no smaller: none left at the first reading means the tomorrow label, and a today label means a single reading at the second value finds the same departure |
| SchedulePanel.IsMorning | app.js:558-559 | a time goes to the morning bucket exactly when the number before its colon is below 12 |
| SchedulePanel.Bucket | app.js:557-560 | a bucket is a list of times no longer than the timetable |
| SchedulePanel.BucketContents | app.js:557-560 | a bucket holds only times of its half of the day, and every such time of the timetable |
| SchedulePanel.BucketAppend | app.js:557-560 | each bucket keeps timetable order |
| SchedulePanel.BucketsPartition | app.js:557-560 | morning and afternoon together are the timetable, repeats included: each time lands in exactly one bucket |
| SchedulePanel.Cards | app.js:563-566 | one card per time, in order; a card is next exactly when its time equals the next departure (`===`) and past exactly when its time is strictly before the clock reading |
| SchedulePanel.LabelUnderTwoReads | app.js:507-588 | with a second clock reading whose minute value is no smaller than the first: no departure left at the first reading gives the tomorrow label; a today label shows the departure a single reading at the second value would find; with equal readings the label says tomorrow exactly when no departure is left |
| SchedulePanel.LabelAtMinuteTurn | app.js:507-588 | when the minute turns between the readings, a single departure at the second reading is found as the next one but labelled tomorrow |
| SchedulePanel.ScheduleGrid | app.js:543-602 | no grid exactly when the merged timetable is empty; otherwise the next departure at the first clock reading, its today flag at the second, and the cards of the morning and afternoon buckets |
| SchedulePanel.RouteSchedule | app.js:631-633 | a route shows a timetable section exactly when either timetable field is present, even if it is empty |
| SchedulePanel.CardMarks | app.js:563-566 | a card is past exactly when its time is before the second clock reading and next exactly when it is the next departure; a time equal to that reading is neither past nor today's next |
| SchedulePanel.GridBuckets | app.js:553-560 | the grid's cards are the merged timetable split into hour < 12 and hour >= 12 |
| Districts.SyllableRun | app.js:23 | the greedy `[가-힣]+` first takes the longest leading run of Hangul syllables: every character inside the run is a syllable, and the one after it, if any, is not |
| Districts.Backtrack | app.js:23 | giving back syllables from the end of the run finds the longest prefix that ends in '구' and has at least two syllables |
| Districts.ExtractDistrict | app.js:23-24 | a label is a prefix of the name made of Hangul syllables ending in '구' |
| Districts.ExtractDistrictLongest | app.js:23-24 | the label is a prefix of the name made of Hangul syllables ending in '구', and no longer prefix is one; no label means no prefix is one |
| Districts.GetDistrict | app.js:19-27 | after the call the cache maps the name to the returned label; a cached name returns its cached label and leaves the cache as it was; other entries are untouched |
| Districts.GetDistrictCoherent | app.js:19-27 | with a correct cache the label is the pattern's and the cache stays correct |
| Districts.GetDistrictRepeat | app.js:20-22 | a repeated call returns the same label and leaves the cache unchanged |
| Districts.CollectDistricts | app.js:203-209 | the collected labels are exactly the non-null districts of the routes |
| Districts.GetDistricts | app.js:200-212 | a cached list is returned as is; otherwise the list is strictly ascending and holds exactly the non-null districts of all routes, and it is then cached |
| Districts.GetDistrictsStable | app.js:200-212 | the list does not depend on what the label cache held, so a second call returns the same list |
| Districts.RoutesInContents | app.js:260-263 | the kept routes are exactly those whose district is the selected one |
| Districts.RoutesInAppend | app.js:260-263 | the district filter keeps dataset order |
| Districts.FilterByDistrict | app.js:260-263 | filtering through the label cache keeps exactly the routes `RoutesIn` keeps, in order, and leaves the cache correct |
| Districts.FilteredRoutes | app.js:257-264 | the empty selection returns every route and leaves the cache as it was; any other selection returns, in order, the routes of that district |
| Examples.SortedMerge | app.js:525-540 | with per-vehicle lists and no flat timetable, any strictly ascending list holding exactly the vehicles' times is the merged timetable |
| Examples.MergeTwoVehicles | app.js:525-540 | vehicles A: 09:00, 08:00 and B: 08:00, 10:00 merge to 08:00, 09:00, 10:00 |
| Examples.NextAfterNoon | app.js:507-522 | at any minute from 12:00 to before 18:00 the next of 08:00, 12:00, 18:00 is 18:00, today |
| Examples.NextWrapsToTomorrow | app.js:507-522 | at any minute from 12:00 on, the next of 08:00, 12:00 is 08:00, tomorrow |
| Examples.ReturnsToStart | app.js:63-76 | a route whose third stop is its first, with no NaN coordinate there, is drawn through its three points with no extra point |
| Examples.OpenPair | app.js:63-76 | two stops at different latitudes are drawn as three points, the third back at the first stop |
| Examples.PathAlreadyClosed | app.js:63-76 | a route whose last stop is its first is drawn with its three points unchanged |
| Examples.PathGetsClosed | app.js:63-76 | a two-stop route gets a third point back at its start |
| Examples.DistrictThenRest | app.js:23-24 | a district followed by text that does not start with a Hangul syllable is the label of the whole name |
| Examples.NoGuInRun | app.js:23-24 | a name whose leading Hangul syllables hold no '구' has no label |
| Examples.DistrictOfRouteName | app.js:23-24 | "강남구 셔틀 1호차" is in 강남구; "셔틀 1호차" has no district |

## Left out

- Naver map objects are foreign library calls and global UI state, so they are not modelled. This covers markers, polylines, info windows, bounds fitting and clearing the map (app.js:138-195, 267-280, 496-504).
- Marker displacement uses floating-point `cos`/`sin` and the 0.00003-degree radius (app.js:356-358), so it is left out. Only the angle is modelled, as a fraction of a full turn (`MarkerTurn`).
- The location key `toFixed(6)` is float-to-string formatting, so it is left out. So is the `split(',').map(Number)` that turns the key back into a marker position (app.js:335, 349). The key is a parameter of the grouping.
- `escapeHtml`, all HTML strings and the marker-icon cache are presentation only, so they are left out (app.js:47-51, 91-135, 568-601, 605-648).
- Reading the clock is replaced by the parameters `searchNow` and `labelNow` (app.js:36-39).
- Geolocation, the dropdowns and the event handlers are DOM and I/O, so they are left out (app.js:216-254, 283-315, 391-493, 651-672).
- `fetch-stations.js` (network data preparation) and `build.js` (deploy-time file copying) are outside the core and are not part of this model.
- `Times.ParseTime` is modelled only on strings of digits, one colon, then digits (`IsTime`). JavaScript's `Number` conversion of other strings is left out: blanks, signs, extra colons and empty parts.
- `Lex.Less` compares Unicode scalar values, while JavaScript's default sort compares UTF-16 code units. The two orders agree on characters of the Basic Multilingual Plane, which covers times and Korean district names.
- `Timetable.NextIsEarliestLater` is stated only for zero-padded "HH:MM" times with minutes below 60. For other formats the string sort and the time order can disagree, so no such promise holds.
- `getDistricts` reads the global route list, and its cached list is reused forever (app.js:201). `GetDistricts` takes the routes as a parameter. `CachesValid` ties a cached list to those routes.
- A district selection of `null` or `undefined` is modelled as the empty string; both are falsy in `getFilteredRoutes` (app.js:258).
- Station ids are modelled as strings. The dataset may also hold them as numbers. A non-zero integer id prints as its decimal string, but the number `0` is falsy at app.js:43 and gives "정류소", not "정류소 ID: 0"; in the model that case is an absent id (`None`).
- The early return of `displayRoute` for a route without stations (app.js:319) is not modelled separately. An empty station list already yields no groups and no path.
- `SchedulePanel.LabelUnderTwoReads` and `Timetable.TwoReads` assume the second reading's minute value is no smaller than the first. When the clock passes midnight between the two reads (23:59, then 00:00), the later reading has the smaller value, and these lemmas say nothing about that case.
- `Grouping.MarkerTurnSpacing` states the spacing of the exact fraction i/n. The program computes `offsetIndex / group.length` as a rounded double (app.js:356), and differences of rounded doubles need not equal 1/n exactly (3/5 − 2/5 is not 1/5 in doubles). Equal spacing therefore holds of the ideal angle only. The ordering and distinctness in `MarkerTurnsDistinct` are not affected for realistic group sizes, but double rounding is not modelled.

=== FILE: districts.dfy ===
/**
 * District labels taken from route names (`Utils.getDistrict`,
 * app.js:19-27), the district list for the filter (`getDistricts`,
 * app.js:197-213) and the routes of one district (`getFilteredRoutes`,
 * app.js:256-264). The application memoises both lookups in module-level
 * caches; here the caches are values passed in and handed back.
 */
module Districts {
  import opened Wrappers
  import Seqs
  import opened Stations
  import Lex

  /** U+AC00 and U+D7A3, the ends of the class `[가-힣]` (all precomposed
      Hangul syllables). */
  const FirstSyllable: char := '가'
  const LastSyllable: char := '힣'
  /** U+AD6C, the district suffix "gu" (itself a syllable of the class). */
  const Gu: char := '구'

  predicate IsSyllable(c: char)
  {
    FirstSyllable <= c <= LastSyllable
  }

  /** A string the capture group `([가-힣]+구)` matches in full: one or more
      syllables followed by '구'. */
  predicate IsDistrict(p: string)
  {
    && |p| >= 2
    && (forall i :: 0 <= i < |p| ==> IsSyllable(p[i]))
    && p[|p| - 1] == Gu
  }

  /** Length of the leading run of syllables. */
  function SyllableRun(s: string): (n: nat)
    ensures n <= |s|
    ensures forall i :: 0 <= i < n ==> IsSyllable(s[i])
    ensures n < |s| ==> !IsSyllable(s[n])
  {
    if |s| == 0 || !IsSyllable(s[0]) then 0
    else 1 + SyllableRun(s[1..])
  }

  /** The greedy `+` first takes the whole run, then gives back one syllable
      at a time until a '구' ends the match. */
  function Backtrack(s: string, k: nat): (r: Option<string>)
    requires k <= SyllableRun(s)
    ensures r.Some? ==> |r.value| <= k && r.value == s[..|r.value|] && IsDistrict(r.value)
    ensures forall j :: (if r.Some? then |r.value| else 0) < j <= k ==> !IsDistrict(s[..j])
  {
    if k < 2 then None
    else if s[k - 1] == Gu then Some(s[..k])
    else Backtrack(s, k - 1)
  }

  /** What `routeName.match(/^([가-힣]+구)/)` captures: the longest prefix of
      the name that is a district, if any. */
  function ExtractDistrict(name: string): (r: Option<string>)
    ensures r.Some? ==> IsDistrict(r.value) && |r.value| <= |name| && r.value == name[..|r.value|]
  {
    Backtrack(name, SyllableRun(name))
  }

  /** The label is a district prefix of the name and no longer prefix is
      one; no label means no prefix is one. */
  lemma ExtractDistrictLongest(name: string)
    ensures var r := ExtractDistrict(name);
      && (r.Some? ==> IsDistrict(r.value) && |r.value| <= |name| && r.value == name[..|r.value|])
      && (r.Some? ==> forall k :: |r.value| < k <= |name| ==> !IsDistrict(name[..k]))
      && (r.None? ==> forall k :: 0 <= k <= |name| ==> !IsDistrict(name[..k]))
  {
  }

  type Cache = map<string, Option<string>>

  /** Every cached entry is what the pattern gives for its name. */
  ghost predicate Coherent(cache: Cache)
  {
    forall n :: n in cache ==> cache[n] == ExtractDistrict(n)
  }

  /** `Utils.getDistrict`: a cached label if there is one, otherwise the
      pattern's result, remembered. */
  function GetDistrict(cache: Cache, name: string): (res: (Option<string>, Cache))
    ensures name in res.1 && res.1[name] == res.0
    ensures name in cache ==> res.0 == cache[name] && res.1 == cache
    ensures name !in cache ==> res.0 == ExtractDistrict(name)
    ensures res.1.Keys == cache.Keys + {name}
    ensures forall n :: n in cache ==> res.1[n] == cache[n]
  {
    if name in cache then (cache[name], cache)
    else
      var d := ExtractDistrict(name);
      (d, cache[name := d])
  }

  /** With a coherent cache the label is the pattern's, and the cache stays
      coherent. */
  lemma GetDistrictCoherent(cache: Cache, name: string)
    requires Coherent(cache)
    ensures GetDistrict(cache, name).0 == ExtractDistrict(name)
    ensures Coherent(GetDistrict(cache, name).1)
  {
  }

  /** Asking twice gives the same label and leaves the cache as the first
      call left it. */
  lemma GetDistrictRepeat(cache: Cache, name: string)
    ensures var (d, cache') := GetDistrict(cache, name);
      GetDistrict(cache', name) == (d, cache')
  {
  }

  /** Some route of the list is labelled `d`. */
  predicate HasDistrict(routes: seq<Route>, d: string)
  {
    exists i :: 0 <= i < |routes| && ExtractDistrict(routes[i].name) == Some(d)
  }

  lemma HasDistrictSnoc(routes: seq<Route>, d: string)
    requires |routes| > 0
    ensures HasDistrict(routes, d) <==>
      HasDistrict(routes[..|routes| - 1], d) || ExtractDistrict(routes[|routes| - 1].name) == Some(d)
  {
    var init := routes[..|routes| - 1];
    assert forall i :: 0 <= i < |init| ==> init[i] == routes[i];
  }

  /** The non-null labels of the routes, in route order, with the cache
      after all the lookups (the `forEach` of app.js:204-209). */
  function CollectDistricts(cache: Cache, routes: seq<Route>): (res: (seq<string>, Cache))
    requires Coherent(cache)
    ensures Coherent(res.1)
    ensures forall d :: d in res.0 <==> HasDistrict(routes, d)
    decreases |routes|
  {
    if |routes| == 0 then ([], cache)
    else
      var (ds, c1) := CollectDistricts(cache, routes[..|routes| - 1]);
      var last := routes[|routes| - 1];
      GetDistrictCoherent(c1, last.name);
      var (d, c2) := GetDistrict(c1, last.name);
      forall x ensures HasDistrict(routes, x) <==> HasDistrict(routes[..|routes| - 1], x) || ExtractDistrict(last.name) == Some(x) {
        HasDistrictSnoc(routes, x);
      }
      (if d.Some? then ds + [d.value] else ds, c2)
  }

  /** Both caches: labels per route name, and the district list once built. */
  datatype Caches = Caches(district: Cache, districts: Option<seq<string>>)

  /** The list is cached only after it was built from the dataset. */
  ghost predicate CachesValid(c: Caches, routes: seq<Route>)
  {
    && Coherent(c.district)
    && (c.districts.Some? ==> c.districts.value == Lex.SortUnique(CollectDistricts(map[], routes).0))
  }

  /** `getDistricts`: the cached list if there is one, otherwise the
      de-duplicated, sorted labels of all routes, which are then cached. */
  function GetDistricts(c: Caches, routes: seq<Route>): (res: (seq<string>, Caches))
    requires Coherent(c.district)
    ensures c.districts.Some? ==> res == (c.districts.value, c)
    ensures res.1.districts == Some(res.0)
    ensures Coherent(res.1.district)
    ensures c.districts.None? ==>
      && Lex.StrictlySorted(res.0)
      && forall d :: d in res.0 <==> HasDistrict(routes, d)
  {
    if c.districts.Some? then (c.districts.value, c)
    else
      var (ds, dc) := CollectDistricts(c.district, routes);
      var list := Lex.SortUnique(ds);
      assert forall d :: d in list <==> d in Lex.Elems(list);
      (list, Caches(dc, Some(list)))
  }

  /** Whatever the label cache held, the list built is the same one; so a
      cached list is always the one a fromEmpty call would build, and a second
      call returns it unchanged. */
  lemma GetDistrictsStable(c: Caches, routes: seq<Route>)
    requires CachesValid(c, routes)
    ensures CachesValid(GetDistricts(c, routes).1, routes)
    ensures GetDistricts(c, routes).0 == Lex.SortUnique(CollectDistricts(map[], routes).0)
    ensures GetDistricts(GetDistricts(c, routes).1, routes).0 == GetDistricts(c, routes).0
  {
    if c.districts.None? {
      var ds := CollectDistricts(c.district, routes).0;
      var fromEmpty := CollectDistricts(map[], routes).0;
      assert Lex.Elems(ds) == Lex.Elems(fromEmpty);
      Lex.SortUniqueDependsOnlyOnSet(ds, fromEmpty);
    }
  }

  /** The routes of district `d`, in dataset order. */
  function RoutesIn(routes: seq<Route>, d: string): (r: seq<Route>)
    ensures |r| <= |routes|
  {
    if |routes| == 0 then []
    else (if ExtractDistrict(routes[0].name) == Some(d) then [routes[0]] else []) + RoutesIn(routes[1..], d)
  }

  /** The kept routes are exactly those labelled `d`. */
  lemma {:induction false} RoutesInContents(routes: seq<Route>, d: string)
    ensures forall x :: x in RoutesIn(routes, d) <==> x in routes && ExtractDistrict(x.name) == Some(d)
    decreases |routes|
  {
    if |routes| > 0 {
      RoutesInContents(routes[1..], d);
      assert routes == [routes[0]] + routes[1..];
    }
  }

  /** The district filter keeps dataset order. */
  lemma {:induction false} RoutesInAppend(a: seq<Route>, b: seq<Route>, d: string)
    ensures RoutesIn(a + b, d) == RoutesIn(a, d) + RoutesIn(b, d)
    decreases |a|
  {
    if |a| == 0 {
      assert a + b == b;
    } else {
      assert (a + b)[0] == a[0] && (a + b)[1..] == a[1..] + b;
      RoutesInAppend(a[1..], b, d);
      var head := if ExtractDistrict(a[0].name) == Some(d) then [a[0]] else [];
      assert RoutesIn(a + b, d) == head + RoutesIn(a[1..] + b, d);
      assert RoutesIn(a, d) == head + RoutesIn(a[1..], d);
      Seqs.AppendAssoc(head, RoutesIn(a[1..], d), RoutesIn(b, d));
    }
  }

  /** `getFilteredRoutes`: every route for the empty selection, otherwise
      the routes whose label is the selected district, looked up through
      the cache. */
  function FilteredRoutes(cache: Cache, routes: seq<Route>, district: string): (res: (seq<Route>, Cache))
    requires Coherent(cache)
    ensures district == "" ==> res == (routes, cache)
    ensures district != "" ==> res.0 == RoutesIn(routes, district)
    ensures Coherent(res.1)
  {
    if district == "" then (routes, cache)
    else FilterByDistrict(cache, routes, district)
  }

  /** The `filter` of app.js:260-263, threading the label cache. */
  function FilterByDistrict(cache: Cache, routes: seq<Route>, district: string): (res: (seq<Route>, Cache))
    requires Coherent(cache)
    ensures res.0 == RoutesIn(routes, district)
    ensures Coherent(res.1)
    decreases |routes|
  {
    if |routes| == 0 then ([], cache)
    else
      GetDistrictCoherent(cache, routes[0].name);
      var (d, c1) := GetDistrict(cache, routes[0].name);
      var (rest, c2) := FilterByDistrict(c1, routes[1..], district);
      (if d == Some(district) then [routes[0]] + rest else rest, c2)
  }
}

=== FILE: examples.dfy ===
/**
 * Worked cases of the application's behaviour, proved on the model. Each case
 * goes through a small general lemma, so the concrete data is only checked
 * against that lemma's requirements.
 */
module Examples {
  import opened Wrappers
  import opened Stations
  import opened Times
  import opened Timetable
  import opened Polyline
  import opened Districts
  import Lex

  /** A strictly ascending list holding exactly the vehicles' times is the
      merged timetable. */
  lemma SortedMerge(vs: seq<VehicleTimes>, want: seq<string>)
    requires Lex.StrictlySorted(want)
    requires forall t :: InSomeVehicle(vs, t) <==> t in want
    ensures AllScheduleTimes(None, Some(vs)) == want
  {
    var r := AllScheduleTimes(None, Some(vs));
    assert Lex.Elems(r) == Lex.Elems(want);
    Lex.StrictlySortedUnique(r, want);
  }

  /** Two vehicles' times merge into one ascending list without repeats. */
  lemma MergeTwoVehicles()
    ensures AllScheduleTimes(None, Some([("A", ["09:00", "08:00"]), ("B", ["08:00", "10:00"])]))
            == ["08:00", "09:00", "10:00"]
  {
    var vs: seq<VehicleTimes> := [("A", ["09:00", "08:00"]), ("B", ["08:00", "10:00"])];
    var want := ["08:00", "09:00", "10:00"];
    assert Lex.Less("08:00", "09:00") && Lex.Less("09:00", "10:00") && Lex.Less("08:00", "10:00");
    assert Lex.StrictlySorted(want);
    forall t ensures InSomeVehicle(vs, t) <==> t in want {
      if InSomeVehicle(vs, t) {
        var v :| 0 <= v < |vs| && t in vs[v].1;
      }
      if t in want {
        assert t in vs[0].1 || t in vs[1].1;
      }
    }
    SortedMerge(vs, want);
  }

  /** Of three times, the third is next when only it is after `now`. */
  lemma ThirdIsNext(a: string, b: string, c: string, now: nat)
    requires IsTime(a) && IsTime(b) && IsTime(c)
    requires ParseTime(a) <= now && ParseTime(b) <= now < ParseTime(c)
    ensures AllTimes([a, b, c]) && NextDeparture([a, b, c], now) == Some(c)
  {
    var ts := [a, b, c];
    assert ParseTime(ts[2]) > now;
    var i :| 0 <= i < |ts| && NextDeparture(ts, now) == Some(ts[i]) && ParseTime(ts[i]) > now;
  }

  /** Of two times both at or before `now`, the first comes next (tomorrow). */
  lemma NoneLeft(a: string, b: string, now: nat)
    requires IsTime(a) && IsTime(b)
    requires ParseTime(a) <= now && ParseTime(b) <= now
    ensures AllTimes([a, b]) && NextDeparture([a, b], now) == Some(a)
  {
  }

  /** Between 12:00 and 18:00 the next of 08:00, 12:00, 18:00 is 18:00, today. */
  lemma NextAfterNoon(now: nat)
    requires 12 * 60 <= now < 18 * 60
    ensures AllTimes(["08:00", "12:00", "18:00"])
    ensures NextDeparture(["08:00", "12:00", "18:00"], now) == Some("18:00")
    ensures IsToday("18:00", now)
  {
    ClockMinutes("08:00");
    ClockMinutes("12:00");
    ClockMinutes("18:00");
    ThirdIsNext("08:00", "12:00", "18:00", now);
  }

  /** From 12:00 on, the next of 08:00, 12:00 is tomorrow's 08:00. */
  lemma NextWrapsToTomorrow(now: nat)
    requires now >= 12 * 60
    ensures AllTimes(["08:00", "12:00"])
    ensures NextDeparture(["08:00", "12:00"], now) == Some("08:00")
    ensures !IsToday("08:00", now)
  {
    ClockMinutes("08:00");
    ClockMinutes("12:00");
    NoneLeft("08:00", "12:00", now);
  }

  function StationAt(lat: real, lng: real): Station
  {
    Station(None, None, Fin(lat), Fin(lng))
  }

  lemma ThreeOnPath(a: Station, b: Station, c: Station)
    requires OnPath(a) && OnPath(b) && OnPath(c)
    ensures PathStations([a, b, c]) == [a, b, c]
  {
    assert [a, b, c][1..] == [b, c];
    assert [b, c][1..] == [c];
    assert [c][1..] == [];
    assert PathStations([c]) == [c];
    assert PathStations([b, c]) == [b] + [c];
    assert PathStations([a, b, c]) == [a] + [b, c];
  }

  /** A route that comes back to its first stop is drawn without an extra
      point, provided the first stop has no `NaN` coordinate. */
  lemma ReturnsToStart(a: Station, b: Station)
    requires OnPath(a) && OnPath(b) && !a.lat.IsNaN() && !a.lng.IsNaN()
    ensures RoutePath([a, b, a]) == Some([Position(a), Position(b), Position(a)])
  {
    ThreeOnPath(a, b, a);
    assert Positions([a, b, a]) == [Position(a), Position(b), Position(a)];
    assert SimplePath([a, b, a]) == Some(Positions([a, b, a]));
  }

  /** Two stops at different latitudes get a closing point back to the first. */
  lemma OpenPair(a: Station, b: Station)
    requires OnPath(a) && OnPath(b) && !JsEq(a.lat, b.lat)
    ensures RoutePath([a, b]) == Some([Position(a), Position(b), Position(a)])
  {
    assert [a, b][1..] == [b];
    assert [b][1..] == [];
    assert PathStations([a, b]) == [a, b];
    assert Positions([a, b]) == [Position(a), Position(b)];
    assert SimplePath([a, b]) == Some([Position(a), Position(b)] + [Position(a)]);
    assert [Position(a), Position(b)] + [Position(a)] == [Position(a), Position(b), Position(a)];
  }

  /** A route whose last stop is its first is drawn with its three points. */
  lemma PathAlreadyClosed()
    ensures RoutePath([StationAt(37.0, 127.0), StationAt(37.1, 127.1), StationAt(37.0, 127.0)])
            == Some([LatLng(Fin(37.0), Fin(127.0)), LatLng(Fin(37.1), Fin(127.1)), LatLng(Fin(37.0), Fin(127.0))])
  {
    ReturnsToStart(StationAt(37.0, 127.0), StationAt(37.1, 127.1));
  }

  /** A two-stop route gets a third point back at its start. */
  lemma PathGetsClosed()
    ensures RoutePath([StationAt(37.0, 127.0), StationAt(37.1, 127.1)])
            == Some([LatLng(Fin(37.0), Fin(127.0)), LatLng(Fin(37.1), Fin(127.1)), LatLng(Fin(37.0), Fin(127.0))])
  {
    OpenPair(StationAt(37.0, 127.0), StationAt(37.1, 127.1));
  }

  /** A district followed by anything that does not start with a syllable is
      the label of the whole name. */
  lemma DistrictThenRest(p: string, rest: string)
    requires IsDistrict(p) && |rest| > 0 && !IsSyllable(rest[0])
    ensures ExtractDistrict(p + rest) == Some(p)
  {
    var s := p + rest;
    assert s[..|p|] == p && s[|p|] == rest[0];
    assert SyllableRun(s) == |p|;
    assert ExtractDistrict(s) == Backtrack(s, |p|);
  }

  /** No '구' in the leading syllables means no label. */
  lemma NoGuInRun(name: string)
    requires forall i :: 0 <= i < SyllableRun(name) ==> name[i] != Gu
    ensures ExtractDistrict(name) == None
  {
  }

  /** "강남구 셔틀 1호차" is in 강남구; a name without the suffix has no district. */
  lemma DistrictOfRouteName()
    ensures ExtractDistrict("강남구 셔틀 1호차") == Some("강남구")
    ensures ExtractDistrict("셔틀 1호차") == None
  {
    DistrictThenRest("강남구", " 셔틀 1호차");
    assert "강남구" + " 셔틀 1호차" == "강남구 셔틀 1호차";
    var s := "셔틀 1호차";
    assert SyllableRun(s) == 2 by {
      assert s[2] == ' ';
    }
    NoGuInRun(s);
  }
}

=== FILE: grouping.dfy ===
/**
 * The station grouping done while a route is drawn (app.js:325-345): the
 * route's stations are walked in order, stations at `(0, 0)` or with a
 * `NaN` coordinate are skipped, and every other station is appended, tagged
 * with its 1-based position, to the group of its location key. Groups live
 * in a JavaScript `Map`, so they come out in the order their keys were first
 * seen.
 *
 * The key (`lat.toFixed(6) + "," + lng.toFixed(6)` in the application) is a
 * parameter `key`, so everything below holds whatever the key function is.
 */
module Grouping {
  import opened Wrappers
  import opened Stations

  /** A station together with its 1-based position in the route. */
  datatype Member = Member(station: Station, index: nat)

  datatype Group<K> = Group(key: K, members: seq<Member>)

  function KeyOf<K>(key: (Num, Num) -> K, s: Station): K
  {
    key(s.lat, s.lng)
  }

  /** `Map.prototype.has`/`get`: position of the group with key `k`. */
  function FindGroup<K(==)>(gs: seq<Group<K>>, k: K): (r: Option<nat>)
    ensures r.Some? ==> r.value < |gs| && gs[r.value].key == k
    ensures r.None? ==> forall g :: 0 <= g < |gs| ==> gs[g].key != k
  {
    if |gs| == 0 then None
    else if gs[0].key == k then Some(0)
    else match FindGroup(gs[1..], k)
      case None => None
      case Some(i) => Some(i + 1)
  }

  /** Appends `m` to the group of key `k`, creating the group at the end
      when the key is new (app.js:337-344). */
  function AddMember<K(==)>(gs: seq<Group<K>>, k: K, m: Member): seq<Group<K>>
  {
    match FindGroup(gs, k)
    case None => gs + [Group(k, [m])]
    case Some(g) => Append(gs, g, m)
  }

  /** One step of the `forEach`: station `s` at 1-based position `index`. */
  function Visit<K(==)>(key: (Num, Num) -> K, gs: seq<Group<K>>, s: Station, index: nat): seq<Group<K>>
  {
    if Groupable(s) then AddMember(gs, KeyOf(key, s), Member(s, index)) else gs
  }

  /** The groups after the `forEach` has visited the first `n` stations. */
  function GroupPrefix<K(==)>(key: (Num, Num) -> K, stations: seq<Station>, n: nat): seq<Group<K>>
    requires n <= |stations|
  {
    if n == 0 then []
    else Visit(key, GroupPrefix(key, stations, n - 1), stations[n - 1], n)
  }

  /** The location groups of a route's stations. */
  function GroupStations<K(==)>(key: (Num, Num) -> K, stations: seq<Station>): seq<Group<K>>
  {
    GroupPrefix(key, stations, |stations|)
  }

  /** Member `j` of group `g` is the station at 1-based position `index`. */
  ghost predicate At<K>(gs: seq<Group<K>>, g: int, j: int, index: nat)
  {
    0 <= g < |gs| && 0 <= j < |gs[g].members| && gs[g].members[j].index == index
  }

  /** Some group holds the station at 1-based position `index`. */
  ghost predicate Placed<K>(gs: seq<Group<K>>, index: nat)
  {
    exists g, j :: At(gs, g, j, index)
  }

  /** `m` is a correctly tagged, groupable station among the first `n`,
      filed under its own key `k`. */
  ghost predicate Tagged<K>(key: (Num, Num) -> K, stations: seq<Station>, n: nat, k: K, m: Member)
  {
    && 1 <= m.index <= n <= |stations|
    && m.station == stations[m.index - 1]
    && Groupable(m.station)
    && KeyOf(key, m.station) == k
  }

  /** No group is empty. */
  ghost predicate NonEmpty<K>(gs: seq<Group<K>>)
  {
    forall g :: 0 <= g < |gs| ==> |gs[g].members| > 0
  }

  /** Every member is a groupable station among the first `n`, correctly
      tagged, in the group of its own key. */
  ghost predicate AllTagged<K>(key: (Num, Num) -> K, stations: seq<Station>, n: nat, gs: seq<Group<K>>)
  {
    forall g, j :: 0 <= g < |gs| && 0 <= j < |gs[g].members| ==>
      Tagged(key, stations, n, gs[g].key, gs[g].members[j])
  }

  /** Inside a group, members keep stop order. */
  ghost predicate StopOrder<K>(gs: seq<Group<K>>)
  {
    forall g, j, j' :: 0 <= g < |gs| && 0 <= j < j' < |gs[g].members| ==>
      gs[g].members[j].index < gs[g].members[j'].index
  }

  /** One group per key. */
  ghost predicate DistinctKeys<K>(gs: seq<Group<K>>)
  {
    forall g, g' :: 0 <= g < g' < |gs| ==> gs[g].key != gs[g'].key
  }

  /** Groups are ordered by their first member. */
  ghost predicate FirstSeenOrder<K>(gs: seq<Group<K>>)
    requires NonEmpty(gs)
  {
    forall g, g' :: 0 <= g < g' < |gs| ==> gs[g].members[0].index < gs[g'].members[0].index
  }

  /** Every groupable station among the first `n` is in some group. */
  ghost predicate Complete<K>(stations: seq<Station>, n: nat, gs: seq<Group<K>>)
    requires n <= |stations|
  {
    forall i :: 0 <= i < n && Groupable(stations[i]) ==> Placed(gs, i + 1)
  }

  /** What the grouping guarantees after the first `n` stations. */
  ghost predicate Grouped<K>(key: (Num, Num) -> K, stations: seq<Station>, n: nat, gs: seq<Group<K>>)
  {
    && n <= |stations|
    && NonEmpty(gs)
    && AllTagged(key, stations, n, gs)
    && StopOrder(gs)
    && DistinctKeys(gs)
    && FirstSeenOrder(gs)
    && Complete(stations, n, gs)
  }

  lemma AllTaggedGrows<K>(key: (Num, Num) -> K, stations: seq<Station>, n: nat, gs: seq<Group<K>>)
    requires 0 < n <= |stations| && AllTagged(key, stations, n - 1, gs)
    ensures AllTagged(key, stations, n, gs)
  {
    forall g, j | 0 <= g < |gs| && 0 <= j < |gs[g].members|
      ensures Tagged(key, stations, n, gs[g].key, gs[g].members[j])
    {
      assert Tagged(key, stations, n - 1, gs[g].key, gs[g].members[j]);
    }
  }

  /** Below the position being added, every member index is smaller. */
  lemma TaggedBelow<K>(key: (Num, Num) -> K, stations: seq<Station>, n: nat, gs: seq<Group<K>>, g: nat, j: nat)
    requires 0 < n <= |stations| && AllTagged(key, stations, n - 1, gs)
    requires g < |gs| && j < |gs[g].members|
    ensures gs[g].members[j].index < n
  {
    assert Tagged(key, stations, n - 1, gs[g].key, gs[g].members[j]);
  }

  lemma AddNewGroup<K>(key: (Num, Num) -> K, stations: seq<Station>, n: nat, gs: seq<Group<K>>)
    requires 0 < n <= |stations| && Grouped(key, stations, n - 1, gs)
    requires Groupable(stations[n - 1])
    requires forall g :: 0 <= g < |gs| ==> gs[g].key != KeyOf(key, stations[n - 1])
    ensures Grouped(key, stations, n, gs + [Group(KeyOf(key, stations[n - 1]), [Member(stations[n - 1], n)])])
  {
    var k := KeyOf(key, stations[n - 1]);
    var gs' := gs + [Group(k, [Member(stations[n - 1], n)])];
    assert NonEmpty(gs');
    AllTaggedGrows(key, stations, n, gs);
    assert AllTagged(key, stations, n, gs') by {
      forall g, j | 0 <= g < |gs'| && 0 <= j < |gs'[g].members|
        ensures Tagged(key, stations, n, gs'[g].key, gs'[g].members[j])
      {
        if g < |gs| { assert gs'[g] == gs[g]; }
      }
    }
    assert StopOrder(gs') by {
      forall g, j, j' | 0 <= g < |gs'| && 0 <= j < j' < |gs'[g].members|
        ensures gs'[g].members[j].index < gs'[g].members[j'].index
      {
        assert gs'[g] == gs[g];
      }
    }
    assert DistinctKeys(gs');
    assert FirstSeenOrder(gs') by {
      forall g, g' | 0 <= g < g' < |gs'|
        ensures gs'[g].members[0].index < gs'[g'].members[0].index
      {
        TaggedBelow(key, stations, n, gs, g, 0);
        if g' < |gs| { assert gs'[g'] == gs[g']; }
      }
    }
    assert Complete(stations, n, gs') by {
      forall i | 0 <= i < n && Groupable(stations[i])
        ensures Placed(gs', i + 1)
      {
        if i < n - 1 {
          assert Placed(gs, i + 1);
          var g, j :| At(gs, g, j, i + 1);
          assert At(gs', g, j, i + 1);
        } else {
          assert At(gs', |gs|, 0, i + 1);
        }
      }
    }
  }

  /** The groups with member `m` appended to group `g0`. */
  function Append<K>(gs: seq<Group<K>>, g0: nat, m: Member): seq<Group<K>>
    requires g0 < |gs|
  {
    gs[g0 := gs[g0].(members := gs[g0].members + [m])]
  }

  lemma AppendTagged<K>(key: (Num, Num) -> K, stations: seq<Station>, n: nat, gs: seq<Group<K>>, g0: nat)
    requires 0 < n <= |stations| && AllTagged(key, stations, n - 1, gs)
    requires Groupable(stations[n - 1])
    requires g0 < |gs| && gs[g0].key == KeyOf(key, stations[n - 1])
    ensures AllTagged(key, stations, n, Append(gs, g0, Member(stations[n - 1], n)))
  {
    var gs' := Append(gs, g0, Member(stations[n - 1], n));
    AllTaggedGrows(key, stations, n, gs);
    forall g, j | 0 <= g < |gs'| && 0 <= j < |gs'[g].members|
      ensures Tagged(key, stations, n, gs'[g].key, gs'[g].members[j])
    {
      if g != g0 || j < |gs[g0].members| {
        assert gs'[g].members[j] == gs[g].members[j];
      }
    }
  }

  lemma AppendStopOrder<K>(key: (Num, Num) -> K, stations: seq<Station>, n: nat, gs: seq<Group<K>>, g0: nat)
    requires 0 < n <= |stations| && AllTagged(key, stations, n - 1, gs) && StopOrder(gs)
    requires g0 < |gs|
    ensures StopOrder(Append(gs, g0, Member(stations[n - 1], n)))
  {
    var gs' := Append(gs, g0, Member(stations[n - 1], n));
    forall g, j, j' | 0 <= g < |gs'| && 0 <= j < j' < |gs'[g].members|
      ensures gs'[g].members[j].index < gs'[g].members[j'].index
    {
      if g == g0 && j' == |gs[g0].members| {
        TaggedBelow(key, stations, n, gs, g, j);
      } else {
        assert gs'[g].members[j] == gs[g].members[j];
        assert gs'[g].members[j'] == gs[g].members[j'];
      }
    }
  }

  lemma AppendComplete<K>(stations: seq<Station>, n: nat, gs: seq<Group<K>>, g0: nat)
    requires 0 < n <= |stations| && Complete(stations, n - 1, gs)
    requires g0 < |gs|
    ensures Complete(stations, n, Append(gs, g0, Member(stations[n - 1], n)))
  {
    var gs' := Append(gs, g0, Member(stations[n - 1], n));
    forall i | 0 <= i < n && Groupable(stations[i])
      ensures Placed(gs', i + 1)
    {
      if i < n - 1 {
        assert Placed(gs, i + 1);
        var g, j :| At(gs, g, j, i + 1);
        assert gs'[g].members[j] == gs[g].members[j];
        assert At(gs', g, j, i + 1);
      } else {
        assert At(gs', g0, |gs[g0].members|, i + 1);
      }
    }
  }

  lemma AddToGroup<K>(key: (Num, Num) -> K, stations: seq<Station>, n: nat, gs: seq<Group<K>>, g0: nat)
    requires 0 < n <= |stations| && Grouped(key, stations, n - 1, gs)
    requires Groupable(stations[n - 1])
    requires g0 < |gs| && gs[g0].key == KeyOf(key, stations[n - 1])
    ensures Grouped(key, stations, n, Append(gs, g0, Member(stations[n - 1], n)))
  {
    var gs' := Append(gs, g0, Member(stations[n - 1], n));
    assert NonEmpty(gs');
    AppendTagged(key, stations, n, gs, g0);
    AppendStopOrder(key, stations, n, gs, g0);
    assert DistinctKeys(gs') by {
      forall g | 0 <= g < |gs'| ensures gs'[g].key == gs[g].key { }
    }
    assert FirstSeenOrder(gs') by {
      forall g | 0 <= g < |gs'| ensures gs'[g].members[0] == gs[g].members[0] { }
    }
    AppendComplete(stations, n, gs, g0);
  }

  lemma SkipStation<K>(key: (Num, Num) -> K, stations: seq<Station>, n: nat, gs: seq<Group<K>>)
    requires 0 < n <= |stations| && Grouped(key, stations, n - 1, gs)
    requires !Groupable(stations[n - 1])
    ensures Grouped(key, stations, n, gs)
  {
    AllTaggedGrows(key, stations, n, gs);
    assert Complete(stations, n, gs) by {
      forall i | 0 <= i < n && Groupable(stations[i]) ensures Placed(gs, i + 1) { }
    }
  }

  /** One step keeps the invariant. */
  lemma VisitGrouped<K>(key: (Num, Num) -> K, stations: seq<Station>, n: nat, gs: seq<Group<K>>)
    requires 0 < n <= |stations| && Grouped(key, stations, n - 1, gs)
    ensures Grouped(key, stations, n, Visit(key, gs, stations[n - 1], n))
  {
    var s := stations[n - 1];
    if Groupable(s) {
      match FindGroup(gs, KeyOf(key, s))
      case None => AddNewGroup(key, stations, n, gs);
      case Some(g0) => AddToGroup(key, stations, n, gs, g0);
    } else {
      SkipStation(key, stations, n, gs);
    }
  }

  lemma {:induction false} GroupPrefixGrouped<K>(key: (Num, Num) -> K, stations: seq<Station>, n: nat)
    requires n <= |stations|
    ensures Grouped(key, stations, n, GroupPrefix(key, stations, n))
  {
    if n > 0 {
      GroupPrefixGrouped(key, stations, n - 1);
      VisitGrouped(key, stations, n, GroupPrefix(key, stations, n - 1));
    }
  }

  /** The grouping invariant holds of the finished grouping. */
  lemma GroupStationsGrouped<K>(key: (Num, Num) -> K, stations: seq<Station>)
    ensures Grouped(key, stations, |stations|, GroupStations(key, stations))
  {
    GroupPrefixGrouped(key, stations, |stations|);
  }

  /** Group `g` holds the station at 1-based position `index`. */
  ghost predicate InGroup<K>(gs: seq<Group<K>>, g: int, index: nat)
  {
    exists j :: At(gs, g, j, index)
  }

  /** Two places holding the same station are the same place. */
  lemma PlaceUnique<K>(key: (Num, Num) -> K, stations: seq<Station>, gs: seq<Group<K>>,
                       index: nat, g: int, j: int, g': int, j': int)
    requires Grouped(key, stations, |stations|, gs)
    requires At(gs, g, j, index) && At(gs, g', j', index)
    ensures g == g' && j == j'
  {
    assert Tagged(key, stations, |stations|, gs[g].key, gs[g].members[j]);
    assert Tagged(key, stations, |stations|, gs[g'].key, gs[g'].members[j']);
    assert gs[g].key == gs[g'].key;
    assert DistinctKeys(gs);
    assert g == g';
    assert StopOrder(gs);
    assert j == j';
  }

  /** Partition: the station at 1-based position `index` is in some group
      exactly when it is groupable, and then in exactly one place. */
  lemma GroupingPartition<K>(key: (Num, Num) -> K, stations: seq<Station>, index: nat)
    requires 1 <= index <= |stations|
    ensures Groupable(stations[index - 1]) <==> Placed(GroupStations(key, stations), index)
    ensures forall g, j, g', j' ::
              At(GroupStations(key, stations), g, j, index) && At(GroupStations(key, stations), g', j', index)
              ==> g == g' && j == j'
  {
    var gs := GroupStations(key, stations);
    GroupStationsGrouped(key, stations);
    if Placed(gs, index) {
      var g, j :| At(gs, g, j, index);
      assert Tagged(key, stations, |stations|, gs[g].key, gs[g].members[j]);
    }
    forall g, j, g', j' | At(gs, g, j, index) && At(gs, g', j', index)
      ensures g == g' && j == j'
    {
      PlaceUnique(key, stations, gs, index, g, j, g', j');
    }
  }

  /** Every member of a group is the station at its tagged position and
      carries the group's key. */
  lemma GroupMembersShareKey<K>(key: (Num, Num) -> K, stations: seq<Station>, g: nat)
    requires g < |GroupStations(key, stations)|
    ensures var gs := GroupStations(key, stations);
      forall j :: 0 <= j < |gs[g].members| ==>
        && 1 <= gs[g].members[j].index <= |stations|
        && gs[g].members[j].station == stations[gs[g].members[j].index - 1]
        && KeyOf(key, gs[g].members[j].station) == gs[g].key
  {
    var gs := GroupStations(key, stations);
    GroupStationsGrouped(key, stations);
    forall j | 0 <= j < |gs[g].members|
      ensures && 1 <= gs[g].members[j].index <= |stations|
              && gs[g].members[j].station == stations[gs[g].members[j].index - 1]
              && KeyOf(key, gs[g].members[j].station) == gs[g].key
    {
      assert Tagged(key, stations, |stations|, gs[g].key, gs[g].members[j]);
    }
  }

  lemma MemberHasKey<K>(key: (Num, Num) -> K, stations: seq<Station>, gs: seq<Group<K>>, g: nat, index: nat)
    requires AllTagged(key, stations, |stations|, gs)
    requires g < |gs| && 1 <= index <= |stations| && InGroup(gs, g, index)
    ensures Groupable(stations[index - 1]) && KeyOf(key, stations[index - 1]) == gs[g].key
  {
    var j :| At(gs, g, j, index);
    assert Tagged(key, stations, |stations|, gs[g].key, gs[g].members[j]);
  }

  lemma KeyHasMember<K>(key: (Num, Num) -> K, stations: seq<Station>, gs: seq<Group<K>>, g: nat, index: nat)
    requires AllTagged(key, stations, |stations|, gs) && DistinctKeys(gs) && Complete(stations, |stations|, gs)
    requires g < |gs| && 1 <= index <= |stations|
    requires Groupable(stations[index - 1]) && KeyOf(key, stations[index - 1]) == gs[g].key
    ensures InGroup(gs, g, index)
  {
    assert Placed(gs, index);
    var g', j' :| At(gs, g', j', index);
    assert Tagged(key, stations, |stations|, gs[g'].key, gs[g'].members[j']);
    assert g' == g;
    assert At(gs, g, j', index);
  }

  /** A group holds exactly the groupable stations with its key. */
  lemma MembershipOf<K>(key: (Num, Num) -> K, stations: seq<Station>, gs: seq<Group<K>>, g: nat, index: nat)
    requires Grouped(key, stations, |stations|, gs)
    requires g < |gs| && 1 <= index <= |stations|
    ensures InGroup(gs, g, index) <==> Groupable(stations[index - 1]) && KeyOf(key, stations[index - 1]) == gs[g].key
  {
    if InGroup(gs, g, index) {
      MemberHasKey(key, stations, gs, g, index);
    }
    if Groupable(stations[index - 1]) && KeyOf(key, stations[index - 1]) == gs[g].key {
      KeyHasMember(key, stations, gs, g, index);
    }
  }

  lemma GroupMembership<K>(key: (Num, Num) -> K, stations: seq<Station>, g: nat, index: nat)
    requires g < |GroupStations(key, stations)| && 1 <= index <= |stations|
    ensures InGroup(GroupStations(key, stations), g, index)
        <==> Groupable(stations[index - 1]) && KeyOf(key, stations[index - 1]) == GroupStations(key, stations)[g].key
  {
    GroupStationsGrouped(key, stations);
    MembershipOf(key, stations, GroupStations(key, stations), g, index);
  }

  /** The first member of a group is the first occurrence of its key. */
  lemma FirstOccurrence<K>(key: (Num, Num) -> K, stations: seq<Station>, gs: seq<Group<K>>)
    requires Grouped(key, stations, |stations|, gs)
    ensures forall g, i ::
              0 <= g < |gs| && 0 <= i < |stations| &&
              Groupable(stations[i]) && KeyOf(key, stations[i]) == gs[g].key
              ==> gs[g].members[0].index <= i + 1
  {
    forall g, i | 0 <= g < |gs| && 0 <= i < |stations| &&
        Groupable(stations[i]) && KeyOf(key, stations[i]) == gs[g].key
      ensures gs[g].members[0].index <= i + 1
    {
      MembershipOf(key, stations, gs, g, i + 1);
      var j :| At(gs, g, j, i + 1);
      if j > 0 {
        assert StopOrder(gs);
      }
    }
  }

  /** Order: members ascend by stop position, and groups come in the order
      their keys first occur, each group starting at that first occurrence. */
  lemma GroupingOrder<K>(key: (Num, Num) -> K, stations: seq<Station>)
    ensures var gs := GroupStations(key, stations);
      forall g, j, j' :: 0 <= g < |gs| && 0 <= j < j' < |gs[g].members| ==>
        gs[g].members[j].index < gs[g].members[j'].index
    ensures var gs := GroupStations(key, stations);
      forall g :: 0 <= g < |gs| ==> |gs[g].members| > 0
    ensures var gs := GroupStations(key, stations);
      forall g, g' :: 0 <= g < g' < |gs| ==> gs[g].members[0].index < gs[g'].members[0].index
    ensures var gs := GroupStations(key, stations);
      forall g, i :: 0 <= g < |gs| && 0 <= i < |stations| &&
        Groupable(stations[i]) && KeyOf(key, stations[i]) == gs[g].key
        ==> gs[g].members[0].index <= i + 1
  {
    GroupStationsGrouped(key, stations);
    FirstOccurrence(key, stations, GroupStations(key, stations));
  }

  lemma KeysOf<K>(key: (Num, Num) -> K, stations: seq<Station>, gs: seq<Group<K>>, k: K)
    requires Grouped(key, stations, |stations|, gs)
    ensures (exists g :: 0 <= g < |gs| && gs[g].key == k)
        <==> (exists i :: 0 <= i < |stations| && Groupable(stations[i]) && KeyOf(key, stations[i]) == k)
  {
    if exists g :: 0 <= g < |gs| && gs[g].key == k {
      var g :| 0 <= g < |gs| && gs[g].key == k;
      var m := gs[g].members[0];
      assert Tagged(key, stations, |stations|, gs[g].key, m);
      assert stations[m.index - 1] == m.station;
    }
    if exists i :: 0 <= i < |stations| && Groupable(stations[i]) && KeyOf(key, stations[i]) == k {
      var i :| 0 <= i < |stations| && Groupable(stations[i]) && KeyOf(key, stations[i]) == k;
      assert Placed(gs, i + 1);
      var g, j :| At(gs, g, j, i + 1);
      assert Tagged(key, stations, |stations|, gs[g].key, gs[g].members[j]);
    }
  }

  /** A location key gets a group exactly when some groupable station has it. */
  lemma GroupKeys<K>(key: (Num, Num) -> K, stations: seq<Station>, k: K)
    ensures (exists g :: 0 <= g < |GroupStations(key, stations)| && GroupStations(key, stations)[g].key == k)
        <==> (exists i :: 0 <= i < |stations| && Groupable(stations[i]) && KeyOf(key, stations[i]) == k)
  {
    GroupStationsGrouped(key, stations);
    KeysOf(key, stations, GroupStations(key, stations), k);
  }

  /** Where a member's marker sits on the circle around the shared location,
      as a fraction of a full turn (app.js:353-358): member `offsetIndex` of a
      group of `size` gets `offsetIndex / size`. A lone station gets no
      offset (app.js:368-376). */
  function MarkerTurn(size: nat, offsetIndex: nat): (r: Option<real>)
    requires offsetIndex < size
    ensures r.None? <==> size == 1
    ensures r.Some? ==> 0.0 <= r.value < 1.0
  {
    if size > 1 then Some(offsetIndex as real / size as real) else None
  }

  /** The first member sits at angle zero and consecutive members are one
      `size`-th of a turn apart: the markers are evenly spaced. */
  lemma MarkerTurnSpacing(size: nat, i: nat)
    requires 1 < size && i + 1 < size
    ensures MarkerTurn(size, 0) == Some(0.0)
    ensures MarkerTurn(size, i + 1).value - MarkerTurn(size, i).value == 1.0 / size as real
  {
  }

  /** Members of one group get distinct positions on the circle, in order. */
  lemma MarkerTurnsDistinct(size: nat, i: nat, j: nat)
    requires i < j < size
    ensures MarkerTurn(size, i).value < MarkerTurn(size, j).value
  {
    var n := size as real;
    var a := i as real / n;
    var b := j as real / n;
    assert b - a == (j - i) as real / n;
  }
}

=== FILE: lex.dfy ===
/**
 * The ordering of JavaScript's default `Array.prototype.sort` on strings,
 * here compared character by character on Unicode scalar values (the first
 * difference decides, a proper prefix first; JavaScript compares UTF-16
 * code units, which gives the same order inside the Basic Multilingual
 * Plane), and the
 * "de-duplicate then sort" idiom `[...new Set(xs)].sort()` that the
 * application applies both to merged timetables and to district lists.
 */
module Lex {

  /** The set of entries of a list. */
  function Elems<T>(s: seq<T>): set<T>
  {
    set x | x in s
  }

  /** `a` sorts strictly before `b`. */
  predicate Less(a: string, b: string)
  {
    if |a| == 0 then |b| > 0
    else if |b| == 0 then false
    else if a[0] != b[0] then a[0] < b[0]
    else Less(a[1..], b[1..])
  }

  /** One step of the comparison. */
  lemma LessCons(a: string, b: string)
    requires |a| > 0 && |b| > 0
    ensures Less(a, b) <==> if a[0] != b[0] then a[0] < b[0] else Less(a[1..], b[1..])
  {
  }

  lemma {:induction false} LessIrreflexive(a: string)
    ensures !Less(a, a)
  {
    if |a| > 0 {
      LessIrreflexive(a[1..]);
    }
  }

  lemma {:induction false} LessAsymmetric(a: string, b: string)
    ensures Less(a, b) ==> !Less(b, a)
  {
    if |a| > 0 && |b| > 0 && a[0] == b[0] {
      LessAsymmetric(a[1..], b[1..]);
    }
  }

  lemma {:induction false} LessTransitive(a: string, b: string, c: string)
    requires Less(a, b) && Less(b, c)
    ensures Less(a, c)
  {
    if |a| > 0 && |b| > 0 && |c| > 0 && a[0] == b[0] && b[0] == c[0] {
      LessTransitive(a[1..], b[1..], c[1..]);
    }
  }

  /** Any two different strings are ordered one way or the other. */
  lemma {:induction false} LessTotal(a: string, b: string)
    requires a != b
    ensures Less(a, b) || Less(b, a)
  {
    if |a| > 0 && |b| > 0 && a[0] == b[0] {
      assert a == [a[0]] + a[1..] && b == [b[0]] + b[1..];
      LessTotal(a[1..], b[1..]);
    }
  }

  /** Ascending without repetitions. */
  ghost predicate StrictlySorted(s: seq<string>)
  {
    forall i, j :: 0 <= i < j < |s| ==> Less(s[i], s[j])
  }

  /** Inserts `x` into a strictly sorted list unless it is already there. */
  function Insert(xs: seq<string>, x: string): (r: seq<string>)
    requires StrictlySorted(xs)
    ensures StrictlySorted(r)
    ensures Elems(r) == Elems(xs) + {x}
    decreases |xs|
  {
    if |xs| == 0 then [x]
    else if x == xs[0] then xs
    else if Less(x, xs[0]) then
      InsertFrontSorted(xs, x);
      [x] + xs
    else
      LessTotal(x, xs[0]);
      var rest := Insert(xs[1..], x);
      InsertConsSorted(xs[0], rest, x, xs[1..]);
      ElemsCons(xs[0], rest);
      ElemsCons(xs[0], xs[1..]);
      assert xs == [xs[0]] + xs[1..];
      [xs[0]] + rest
  }

  lemma InsertFrontSorted(xs: seq<string>, x: string)
    requires StrictlySorted(xs) && |xs| > 0 && Less(x, xs[0])
    ensures StrictlySorted([x] + xs)
  {
    forall j | 0 < j < |xs| ensures Less(x, xs[j]) {
      LessTransitive(x, xs[0], xs[j]);
    }
  }

  lemma InsertConsSorted(h: string, rest: seq<string>, x: string, tail: seq<string>)
    requires StrictlySorted(rest) && StrictlySorted([h] + tail)
    requires Less(h, x)
    requires Elems(rest) == Elems(tail) + {x}
    ensures StrictlySorted([h] + rest)
  {
    forall j | 0 <= j < |rest| ensures Less(h, rest[j]) {
      assert rest[j] in Elems(rest);
      if rest[j] != x {
        assert rest[j] in Elems(tail);
        var k :| 0 <= k < |tail| && tail[k] == rest[j];
        var ht := [h] + tail;
        assert ht[0] == h && ht[k + 1] == tail[k];
        assert Less(ht[0], ht[k + 1]);
      }
    }
  }

  /** `[...new Set(xs)].sort()`: the distinct elements of `xs`, ascending. */
  function SortUnique(xs: seq<string>): (r: seq<string>)
    ensures StrictlySorted(r)
    ensures Elems(r) == Elems(xs)
  {
    if |xs| == 0 then []
    else
      var init := xs[..|xs| - 1];
      assert xs == init + [xs[|xs| - 1]];
      Insert(SortUnique(init), xs[|xs| - 1])
  }

  lemma ElemsEmpty<T>(s: seq<T>)
    ensures Elems(s) == {} <==> |s| == 0
  {
    if |s| > 0 {
      assert s[0] in Elems(s);
    }
  }

  lemma ElemsCons<T>(h: T, t: seq<T>)
    ensures Elems([h] + t) == {h} + Elems(t)
  {
    assert forall x :: x in [h] + t <==> x == h || x in t;
  }

  lemma SortedHeadFresh(a: seq<string>)
    requires StrictlySorted(a) && |a| > 0
    ensures a[0] !in Elems(a[1..])
  {
    forall k | 1 <= k < |a| ensures a[k] != a[0] {
      LessIrreflexive(a[0]);
    }
  }

  /** A strictly sorted list is determined by its set of elements. */
  lemma {:induction false} StrictlySortedUnique(a: seq<string>, b: seq<string>)
    requires StrictlySorted(a) && StrictlySorted(b)
    requires Elems(a) == Elems(b)
    ensures a == b
    decreases |a|
  {
    ElemsEmpty(a);
    ElemsEmpty(b);
    if |a| > 0 && |b| > 0 {
      assert a[0] in Elems(b) && b[0] in Elems(a);
      var i :| 0 <= i < |b| && b[i] == a[0];
      var j :| 0 <= j < |a| && a[j] == b[0];
      LessAsymmetric(a[0], b[0]);
      assert a[0] == b[0];
      assert a == [a[0]] + a[1..] && b == [b[0]] + b[1..];
      ElemsCons(a[0], a[1..]);
      ElemsCons(b[0], b[1..]);
      SortedHeadFresh(a);
      SortedHeadFresh(b);
      assert Elems(a[1..]) == Elems(b[1..]);
      StrictlySortedUnique(a[1..], b[1..]);
    }
  }

  /** The de-duplicated, sorted list does not depend on the order (or the
      repetitions) of its input: only on the set of its elements. */
  lemma SortUniqueDependsOnlyOnSet(xs: seq<string>, ys: seq<string>)
    requires Elems(xs) == Elems(ys)
    ensures SortUnique(xs) == SortUnique(ys)
  {
    StrictlySortedUnique(SortUnique(xs), SortUnique(ys));
  }
}

=== FILE: polyline.dfy ===
/**
 * The polyline drawn for a route (app.js:63-76 and 380-387): the stations
 * that are not at `(0, 0)`, in order, closed back to the first one when the
 * last one is somewhere else.
 */
module Polyline {
  import opened Wrappers
  import Seqs
  import opened Stations

  datatype LatLng = LatLng(lat: Num, lng: Num)

  function Position(s: Station): LatLng
  {
    LatLng(s.lat, s.lng)
  }

  /** The stations the polyline goes through (app.js:381-383). */
  function PathStations(stations: seq<Station>): (r: seq<Station>)
    ensures |r| <= |stations|
  {
    if |stations| == 0 then []
    else (if OnPath(stations[0]) then [stations[0]] else []) + PathStations(stations[1..])
  }

  /** The path goes through exactly the stations that are not at `(0, 0)`. */
  lemma {:induction false} PathStationsContents(stations: seq<Station>)
    ensures forall s :: s in PathStations(stations) <==> s in stations && OnPath(s)
    decreases |stations|
  {
    if |stations| > 0 {
      PathStationsContents(stations[1..]);
      assert stations == [stations[0]] + stations[1..];
    }
  }

  /** The path filter keeps order: filtering a concatenation filters each part. */
  lemma {:induction false} PathStationsAppend(a: seq<Station>, b: seq<Station>)
    ensures PathStations(a + b) == PathStations(a) + PathStations(b)
    decreases |a|
  {
    if |a| == 0 {
      assert a + b == b;
    } else {
      assert (a + b)[0] == a[0] && (a + b)[1..] == a[1..] + b;
      PathStationsAppend(a[1..], b);
      var head := if OnPath(a[0]) then [a[0]] else [];
      assert PathStations(a + b) == head + PathStations(a[1..] + b);
      assert PathStations(a) == head + PathStations(a[1..]);
      Seqs.AppendAssoc(head, PathStations(a[1..]), PathStations(b));
    }
  }

  /** The only station the path filter drops is one at exactly `(0, 0)`;
      a `NaN` coordinate does not remove a station from the path. */
  lemma PathStationsSingle(s: Station)
    ensures PathStations([s]) == if AtOrigin(s) then [] else [s]
    ensures s.lat.IsNaN() || s.lng.IsNaN() ==> PathStations([s]) == [s]
  {
    assert [s][1..] == [];
  }

  function Positions(stations: seq<Station>): (r: seq<LatLng>)
    ensures |r| == |stations|
    ensures forall i :: 0 <= i < |stations| ==> r[i] == Position(stations[i])
  {
    seq(|stations|, i requires 0 <= i < |stations| => Position(stations[i]))
  }

  /** `createSimplePolyline`: nothing for fewer than two stations; otherwise
      their positions, plus the first position again when the first and last
      stations differ under `!==` (so always when a coordinate is `NaN`). */
  function SimplePath(stations: seq<Station>): (r: Option<seq<LatLng>>)
    ensures r.None? <==> |stations| < 2
    ensures r.Some? ==>
      var first := stations[0];
      var last := stations[|stations| - 1];
      && |stations| <= |r.value| <= |stations| + 1
      && r.value[..|stations|] == Positions(stations)
      && r.value[|r.value| - 1] == r.value[0] == Position(first)
      && (|r.value| == |stations| + 1 <==> !(JsEq(first.lat, last.lat) && JsEq(first.lng, last.lng)))
  {
    if |stations| < 2 then None
    else
      var first := stations[0];
      var last := stations[|stations| - 1];
      var path := Positions(stations);
      if !JsEq(first.lat, last.lat) || !JsEq(first.lng, last.lng) then
        Some(path + [Position(first)])
      else
        Some(path)
  }

  /** The polyline of a route as `displayRoute` requests it (app.js:380-387). */
  function RoutePath(stations: seq<Station>): (r: Option<seq<LatLng>>)
    ensures r.None? <==> |PathStations(stations)| < 2
    ensures r.Some? ==>
      var valid := PathStations(stations);
      && |valid| <= |r.value| <= |valid| + 1
      && r.value[..|valid|] == Positions(valid)
      && r.value[|r.value| - 1] == r.value[0]
  {
    var valid := PathStations(stations);
    if |valid| > 1 then SimplePath(valid) else None
  }
}

=== FILE: schedule_panel.dfy ===
/**
 * The departure grid of the route panel (`generateScheduleHTML`,
 * app.js:543-602, and its guard in `updateRouteInfo`, app.js:631-633),
 * without the HTML: the next departure with its today/tomorrow flag, and
 * the times split into morning and afternoon, each time marked "next"
 * and/or "past".
 */
module SchedulePanel {
  import opened Wrappers
  import Seqs
  import opened Stations
  import opened Times
  import opened Timetable

  datatype Card = Card(time: string, isNext: bool, isPast: bool)

  datatype Panel =
    | NoTimetable
    | Grid(next: string, nextIsToday: bool, morning: seq<Card>, afternoon: seq<Card>)

  /** app.js:557-559: a time before noon by its hour part. */
  predicate IsMorning(t: string)
    requires IsTime(t)
  {
    Hours(t) < 12
  }

  /** The times of one half of the day, in timetable order. */
  function Bucket(times: seq<string>, morning: bool): (r: seq<string>)
    requires AllTimes(times)
    ensures AllTimes(r)
    ensures |r| <= |times|
  {
    if |times| == 0 then []
    else
      var rest := Bucket(times[1..], morning);
      if IsMorning(times[0]) == morning then [times[0]] + rest else rest
  }

  /** A bucket holds only times of its half of the day, and every such time
      of the timetable. */
  lemma {:induction false} BucketContents(times: seq<string>, morning: bool)
    requires AllTimes(times)
    ensures forall i :: 0 <= i < |Bucket(times, morning)| ==>
              Bucket(times, morning)[i] in times && IsMorning(Bucket(times, morning)[i]) == morning
    ensures forall i :: 0 <= i < |times| && IsMorning(times[i]) == morning ==> times[i] in Bucket(times, morning)
    decreases |times|
  {
    if |times| > 0 {
      BucketContents(times[1..], morning);
      assert forall i :: 1 <= i < |times| ==> times[i] == times[1..][i - 1];
    }
  }

  /** Each bucket keeps timetable order: bucketing a concatenation buckets
      each part. */
  lemma {:induction false} BucketAppend(a: seq<string>, b: seq<string>, morning: bool)
    requires AllTimes(a) && AllTimes(b)
    ensures AllTimes(a + b)
    ensures Bucket(a + b, morning) == Bucket(a, morning) + Bucket(b, morning)
    decreases |a|
  {
    AllTimesAppend(a, b);
    if |a| == 0 {
      assert a + b == b;
    } else {
      assert (a + b)[0] == a[0] && (a + b)[1..] == a[1..] + b;
      BucketAppend(a[1..], b, morning);
      var head := if IsMorning(a[0]) == morning then [a[0]] else [];
      Seqs.AppendAssoc(head, Bucket(a[1..], morning), Bucket(b, morning));
    }
  }

  /** Every time lands in exactly one bucket: together the two buckets are
      the timetable, repetitions included. */
  lemma {:induction false} BucketsPartition(times: seq<string>)
    requires AllTimes(times)
    ensures multiset(Bucket(times, true)) + multiset(Bucket(times, false)) == multiset(times)
    decreases |times|
  {
    if |times| > 0 {
      BucketsPartition(times[1..]);
      assert times == [times[0]] + times[1..];
    }
  }

  function CardTimes(cards: seq<Card>): (r: seq<string>)
    ensures |r| == |cards|
    ensures forall i :: 0 <= i < |cards| ==> r[i] == cards[i].time
  {
    seq(|cards|, i requires 0 <= i < |cards| => cards[i].time)
  }

  /** One card per time; "next" marks every time equal to the next departure
      (app.js:564), "past" every time strictly before `now` (app.js:565-566). */
  function Cards(times: seq<string>, next: string, now: nat): (r: seq<Card>)
    requires AllTimes(times)
    ensures CardTimes(r) == times
    ensures forall i :: 0 <= i < |r| ==> r[i].isNext == (times[i] == next)
    ensures forall i :: 0 <= i < |r| ==> r[i].isPast == (ParseTime(times[i]) < now)
  {
    seq(|times|, i requires 0 <= i < |times| => Card(times[i], times[i] == next, ParseTime(times[i]) < now))
  }

  /** `generateScheduleHTML` without the markup. The clock is read twice:
      `searchNow` inside `findNextDeparture` (app.js:510) and `labelNow`
      right after it (app.js:551), which decides the "tomorrow" label and
      the past marks. */
  function ScheduleGrid(schedule: Option<seq<string>>, byVehicle: Option<seq<VehicleTimes>>,
                        searchNow: nat, labelNow: nat): (p: Panel)
    requires AllTimes(AllScheduleTimes(schedule, byVehicle))
    ensures p.NoTimetable? <==> |AllScheduleTimes(schedule, byVehicle)| == 0
    ensures p.Grid? ==>
      var all := AllScheduleTimes(schedule, byVehicle);
      && NextDeparture(all, searchNow) == Some(p.next)
      && p.nextIsToday == IsToday(p.next, labelNow)
      && CardTimes(p.morning) == Bucket(all, true)
      && CardTimes(p.afternoon) == Bucket(all, false)
  {
    var all := AllScheduleTimes(schedule, byVehicle);
    if |all| == 0 then NoTimetable
    else
      var next := NextDeparture(all, searchNow).value;
      Grid(next, IsToday(next, labelNow), Cards(Bucket(all, true), next, labelNow), Cards(Bucket(all, false), next, labelNow))
  }

  /** What the panel shows of a route's timetable (app.js:631-633): a panel
      whenever either timetable field is present, even empty. */
  function RouteSchedule(route: Route, searchNow: nat, labelNow: nat): (r: Option<Panel>)
    requires AllTimes(AllScheduleTimes(route.schedule, route.scheduleByVehicle))
    ensures r.None? <==> route.schedule.None? && route.scheduleByVehicle.None?
    ensures route.schedule == Some([]) && route.scheduleByVehicle.None? ==> r == Some(NoTimetable)
  {
    if route.schedule.Some? || route.scheduleByVehicle.Some? then
      Some(ScheduleGrid(route.schedule, route.scheduleByVehicle, searchNow, labelNow))
    else None
  }

  /** The "tomorrow" label under the two clock reads, the second no earlier
      than the first. With no departure left at the first read the label
      says tomorrow. A "today" label is always right: the departure shown
      is the one a single read at the second time would find. When both
      reads agree, the label says tomorrow exactly when no departure is
      left. */
  lemma LabelUnderTwoReads(schedule: Option<seq<string>>, byVehicle: Option<seq<VehicleTimes>>,
                           searchNow: nat, labelNow: nat)
    requires AllTimes(AllScheduleTimes(schedule, byVehicle))
    requires searchNow <= labelNow
    requires |AllScheduleTimes(schedule, byVehicle)| > 0
    ensures var all := AllScheduleTimes(schedule, byVehicle);
      var p := ScheduleGrid(schedule, byVehicle, searchNow, labelNow);
      && ((forall k :: 0 <= k < |all| ==> ParseTime(all[k]) <= searchNow) ==> !p.nextIsToday)
      && (p.nextIsToday ==> NextDeparture(all, labelNow) == Some(p.next))
      && (searchNow == labelNow ==>
            (!p.nextIsToday <==> forall k :: 0 <= k < |all| ==> ParseTime(all[k]) <= labelNow))
  {
    var all := AllScheduleTimes(schedule, byVehicle);
    TwoReads(all, searchNow, labelNow);
  }

  /** When the minute turns between the two reads, a departure found as
      still to come is labelled "tomorrow": with a single departure at `t`,
      the search one minute before finds `t`, and the label read at `t`
      no longer counts it as today. */
  lemma LabelAtMinuteTurn(t: string)
    requires IsTime(t) && ParseTime(t) > 0
    ensures var p := ScheduleGrid(Some([t]), None, ParseTime(t) - 1, ParseTime(t));
      p.Grid? && p.next == t && !p.nextIsToday
  {
    assert AllScheduleTimes(Some([t]), None) == [t];
  }

  /** The marks on the grid: a card is "past" exactly when its time is
      before the second read, "next" exactly when it is the next departure,
      and a departure at exactly that minute is neither past nor today's
      next. */
  lemma CardMarks(schedule: Option<seq<string>>, byVehicle: Option<seq<VehicleTimes>>,
                  searchNow: nat, labelNow: nat, c: Card)
    requires AllTimes(AllScheduleTimes(schedule, byVehicle))
    requires |AllScheduleTimes(schedule, byVehicle)| > 0
    requires c in ScheduleGrid(schedule, byVehicle, searchNow, labelNow).morning
                  + ScheduleGrid(schedule, byVehicle, searchNow, labelNow).afternoon
    ensures IsTime(c.time) && IsTime(ScheduleGrid(schedule, byVehicle, searchNow, labelNow).next)
    ensures c.isPast <==> ParseTime(c.time) < labelNow
    ensures c.isNext <==> c.time == ScheduleGrid(schedule, byVehicle, searchNow, labelNow).next
    ensures ParseTime(c.time) == labelNow ==>
              !c.isPast && !(c.isNext && ScheduleGrid(schedule, byVehicle, searchNow, labelNow).nextIsToday)
  {
    var p := ScheduleGrid(schedule, byVehicle, searchNow, labelNow);
    var all := AllScheduleTimes(schedule, byVehicle);
    if c in p.morning {
      CardInCards(Bucket(all, true), p.next, labelNow, c);
    } else {
      CardInCards(Bucket(all, false), p.next, labelNow, c);
    }
  }

  lemma CardInCards(times: seq<string>, next: string, now: nat, c: Card)
    requires AllTimes(times)
    requires c in Cards(times, next, now)
    ensures IsTime(c.time)
    ensures c.isPast <==> ParseTime(c.time) < now
    ensures c.isNext <==> c.time == next
  {
    var cards := Cards(times, next, now);
    var i :| 0 <= i < |cards| && cards[i] == c;
    assert CardTimes(cards)[i] == c.time;
  }

  /** Morning holds exactly the times before noon and afternoon the rest,
      every time of the merged timetable in exactly one of them. */
  lemma GridBuckets(schedule: Option<seq<string>>, byVehicle: Option<seq<VehicleTimes>>, searchNow: nat, labelNow: nat)
    requires AllTimes(AllScheduleTimes(schedule, byVehicle))
    requires |AllScheduleTimes(schedule, byVehicle)| > 0
    ensures var p := ScheduleGrid(schedule, byVehicle, searchNow, labelNow);
      multiset(CardTimes(p.morning)) + multiset(CardTimes(p.afternoon))
        == multiset(AllScheduleTimes(schedule, byVehicle))
    ensures var p := ScheduleGrid(schedule, byVehicle, searchNow, labelNow);
      forall i :: 0 <= i < |p.morning| ==> IsTime(p.morning[i].time) && Hours(p.morning[i].time) < 12
    ensures var p := ScheduleGrid(schedule, byVehicle, searchNow, labelNow);
      forall i :: 0 <= i < |p.afternoon| ==> IsTime(p.afternoon[i].time) && Hours(p.afternoon[i].time) >= 12
  {
    var all := AllScheduleTimes(schedule, byVehicle);
    BucketsPartition(all);
    BucketContents(all, true);
    BucketContents(all, false);
  }
}

=== FILE: seqs.dfy ===
/**
 * Facts about sequences shared by the order-keeping filters.
 */
module Seqs {
  lemma AppendAssoc<T>(x: seq<T>, y: seq<T>, z: seq<T>)
    ensures x + (y + z) == (x + y) + z
  {
  }
}

=== FILE: stations.dfy ===
/**
 * The static route data: stations with coordinates and routes with their
 * stop sequences and timetables, plus the two station-validity tests the
 * map rendering applies (they differ, see `Groupable` and `OnPath`).
 */
module Stations {
  import opened Wrappers

  /** A JavaScript number as it appears in a coordinate. Negative zero is
      folded into zero, since `-0 === 0` and nothing here tells them apart. */
  datatype Num = NaN | PosInf | NegInf | Fin(r: real)
  {
    /** `isNaN(x)` */
    predicate IsNaN() { NaN? }

    /** `x === 0` */
    predicate IsZero() { this == Fin(0.0) }
  }

  /** JavaScript's `===` on numbers: `NaN` equals nothing, itself included. */
  predicate JsEq(a: Num, b: Num)
  {
    !a.IsNaN() && a == b
  }

  datatype Station = Station(name: Option<string>, stationId: Option<string>, lat: Num, lng: Num)

  /** Vehicle id paired with that vehicle's departure times, in the order
      the vehicle-keyed timetable object enumerates its values. */
  type VehicleTimes = (string, seq<string>)

  datatype Route = Route(
    id: string,
    name: string,
    color: Option<string>,
    description: string,
    interval: Option<string>,
    stations: seq<Station>,
    schedule: Option<seq<string>>,
    scheduleByVehicle: Option<seq<VehicleTimes>>)

  /** The placeholder location `(0, 0)`. */
  predicate AtOrigin(s: Station)
  {
    s.lat.IsZero() && s.lng.IsZero()
  }

  /** Kept for markers: neither at the origin nor with a `NaN` coordinate
      (app.js:329-330). Infinite coordinates pass, as `isNaN` lets them. */
  predicate Groupable(s: Station)
  {
    !AtOrigin(s) && !s.lat.IsNaN() && !s.lng.IsNaN()
  }

  /** Kept for the polyline: anything but the origin (app.js:381-383),
      so `NaN` coordinates survive here. */
  predicate OnPath(s: Station)
  {
    !s.lat.IsZero() || !s.lng.IsZero()
  }

  lemma GroupableIsOnPath(s: Station)
    ensures Groupable(s) ==> OnPath(s)
    ensures OnPath(s) && !Groupable(s) <==> s.lat.IsNaN() || s.lng.IsNaN()
  {
  }

  /** A JavaScript string is truthy exactly when it is non-empty. */
  predicate Truthy(o: Option<string>)
  {
    o.Some? && |o.value| > 0
  }

  const IdLabel: string := "정류소 ID: "
  const Unnamed: string := "정류소"

  /** `Utils.getStationName`: the name when there is one, otherwise a label
      built from the station id, otherwise a generic label. */
  function StationName(s: Station): (r: string)
    ensures Truthy(s.name) ==> r == s.name.value
    ensures !Truthy(s.name) && Truthy(s.stationId) ==>
              |r| > |IdLabel| && r[..|IdLabel|] == IdLabel && r[|IdLabel|..] == s.stationId.value
    ensures !Truthy(s.name) && !Truthy(s.stationId) ==> r == Unnamed
    ensures |r| > 0
  {
    if Truthy(s.name) then s.name.value
    else if Truthy(s.stationId) then IdLabel + s.stationId.value
    else Unnamed
  }
}

=== FILE: times.dfy ===
/**
 * Time-of-day strings as the timetables write them, and `Utils.parseTime`
 * (app.js:30-33): split at the colon, read both parts as decimal numbers,
 * return `hours * 60 + minutes`.
 */
module Times {
  import Lex

  predicate IsDigit(c: char)
  {
    '0' <= c <= '9'
  }

  predicate AllDigits(s: string)
  {
    forall i :: 0 <= i < |s| ==> IsDigit(s[i])
  }

  function DigitValue(c: char): (r: nat)
    requires IsDigit(c)
    ensures r < 10
  {
    (c as int) - ('0' as int)
  }

  /** `Number(s)` for a non-empty string of decimal digits. */
  function Decimal(s: string): nat
    requires AllDigits(s)
  {
    if |s| == 0 then 0
    else Decimal(s[..|s| - 1]) * 10 + DigitValue(s[|s| - 1])
  }

  /** Position of the first colon, or `|t|` when there is none. */
  function ColonAt(t: string): (p: nat)
    ensures p <= |t|
    ensures p < |t| ==> t[p] == ':'
    ensures forall i :: 0 <= i < p ==> t[i] != ':'
  {
    if |t| == 0 then 0
    else if t[0] == ':' then 0
    else 1 + ColonAt(t[1..])
  }

  /** Digits, one colon, digits: the strings `parseTime` reads as a time. */
  predicate IsTime(t: string)
  {
    var p := ColonAt(t);
    0 < p < |t| - 1 && AllDigits(t[..p]) && AllDigits(t[p + 1..])
  }

  /** The hour part, `Number(t.split(':')[0])`. */
  function Hours(t: string): nat
    requires IsTime(t)
  {
    Decimal(t[..ColonAt(t)])
  }

  /** The minute part, `Number(t.split(':')[1])`. */
  function MinutePart(t: string): nat
    requires IsTime(t)
  {
    Decimal(t[ColonAt(t) + 1..])
  }

  /** `Utils.parseTime`: minutes since midnight. */
  function ParseTime(t: string): nat
    requires IsTime(t)
  {
    Hours(t) * 60 + MinutePart(t)
  }

  /** A zero-padded `HH:MM` time with a minute part below 60, as in the
      route data. */
  predicate IsClock(t: string)
  {
    && |t| == 5
    && IsDigit(t[0]) && IsDigit(t[1])
    && t[2] == ':'
    && '0' <= t[3] <= '5' && IsDigit(t[4])
  }

  lemma TwoDigits(s: string)
    requires |s| == 2 && AllDigits(s)
    ensures Decimal(s) == DigitValue(s[0]) * 10 + DigitValue(s[1])
  {
    var h := s[..1];
    assert h[..0] == [] && h[0] == s[0];
    assert Decimal(h) == DigitValue(s[0]);
    assert s[..|s| - 1] == h;
  }

  lemma ClockParts(t: string)
    requires IsClock(t)
    ensures IsTime(t)
    ensures Hours(t) == DigitValue(t[0]) * 10 + DigitValue(t[1])
    ensures MinutePart(t) == DigitValue(t[3]) * 10 + DigitValue(t[4])
    ensures MinutePart(t) < 60
  {
    assert t[1..][1..] == t[2..];
    assert ColonAt(t) == 2;
    TwoDigits(t[..2]);
    TwoDigits(t[3..]);
  }

  /** On `HH:MM` strings the string order compares the four digits in turn. */
  lemma ClockLess(a: string, b: string)
    requires IsClock(a) && IsClock(b)
    ensures Lex.Less(a, b) <==>
      a[0] < b[0] || (a[0] == b[0] && (a[1] < b[1] || (a[1] == b[1] && (a[3] < b[3] || (a[3] == b[3] && a[4] < b[4])))))
  {
    Lex.LessCons(a, b);
    Lex.LessCons(a[1..], b[1..]);
    Lex.LessCons(a[2..], b[2..]);
    Lex.LessCons(a[3..], b[3..]);
    Lex.LessCons(a[4..], b[4..]);
    assert a[1..][1..] == a[2..] && b[1..][1..] == b[2..];
    assert a[2..][1..] == a[3..] && b[2..][1..] == b[3..];
    assert a[3..][1..] == a[4..] && b[3..][1..] == b[4..];
    assert a[4..][1..] == [] && b[4..][1..] == [];
  }

  /** Comparing hour tens, hour units, minute tens, minute units in turn
      is comparing minutes since midnight. */
  lemma DigitsOrder(a0: int, a1: int, a3: int, a4: int, b0: int, b1: int, b3: int, b4: int)
    requires 0 <= a0 < 10 && 0 <= a1 < 10 && 0 <= a3 < 6 && 0 <= a4 < 10
    requires 0 <= b0 < 10 && 0 <= b1 < 10 && 0 <= b3 < 6 && 0 <= b4 < 10
    ensures (a0 < b0 || (a0 == b0 && (a1 < b1 || (a1 == b1 && (a3 < b3 || (a3 == b3 && a4 < b4))))))
        <==> (a0 * 10 + a1) * 60 + a3 * 10 + a4 < (b0 * 10 + b1) * 60 + b3 * 10 + b4
    ensures (a0 == b0 && a1 == b1 && a3 == b3 && a4 == b4)
        <==> (a0 * 10 + a1) * 60 + a3 * 10 + a4 == (b0 * 10 + b1) * 60 + b3 * 10 + b4
  {
  }

  /** The minutes of an `HH:MM` time, digit by digit. */
  lemma ClockMinutes(t: string)
    requires IsClock(t)
    ensures IsTime(t)
    ensures ParseTime(t) == (DigitValue(t[0]) * 10 + DigitValue(t[1])) * 60 + DigitValue(t[3]) * 10 + DigitValue(t[4])
  {
    ClockParts(t);
  }

  lemma ClockSame(a: string, b: string)
    requires IsClock(a) && IsClock(b)
    requires DigitValue(a[0]) == DigitValue(b[0]) && DigitValue(a[1]) == DigitValue(b[1])
    requires DigitValue(a[3]) == DigitValue(b[3]) && DigitValue(a[4]) == DigitValue(b[4])
    ensures a == b
  {
    assert a == [a[0], a[1], a[2], a[3], a[4]];
    assert b == [b[0], b[1], b[2], b[3], b[4]];
  }

  /** On `HH:MM` times the string order the timetable is sorted by agrees
      with the order of the times of day. */
  lemma ClockOrder(a: string, b: string)
    requires IsClock(a) && IsClock(b)
    ensures IsTime(a) && IsTime(b)
    ensures Lex.Less(a, b) <==> ParseTime(a) < ParseTime(b)
    ensures a == b <==> ParseTime(a) == ParseTime(b)
  {
    ClockMinutes(a);
    ClockMinutes(b);
    ClockLess(a, b);
    var a0, a1, a3, a4 := DigitValue(a[0]), DigitValue(a[1]), DigitValue(a[3]), DigitValue(a[4]);
    var b0, b1, b3, b4 := DigitValue(b[0]), DigitValue(b[1]), DigitValue(b[3]), DigitValue(b[4]);
    DigitsOrder(a0, a1, a3, a4, b0, b1, b3, b4);
    if a0 == b0 && a1 == b1 && a3 == b3 && a4 == b4 {
      ClockSame(a, b);
    }
  }
}

=== FILE: timetable.dfy ===
/**
 * The timetable shown in the route panel: merging the two timetable
 * representations (`getAllScheduleTimes`, app.js:525-540), finding the next
 * departure (`findNextDeparture`, app.js:507-522) and the morning/afternoon
 * grid with its "next" and "past" marks (`generateScheduleHTML`,
 * app.js:543-602). The current time is a parameter: minutes since midnight,
 * as `Utils.getCurrentTimeInMinutes` reads it from the clock.
 */
module Timetable {
  import opened Wrappers
  import opened Stations
  import opened Times
  import Lex

  /** Some vehicle departs at `t`. */
  predicate InSomeVehicle(vs: seq<VehicleTimes>, t: string)
  {
    exists v :: 0 <= v < |vs| && t in vs[v].1
  }

  /** `Object.values(scheduleByVehicle)` flattened in enumeration order. */
  function Concat(vs: seq<VehicleTimes>): (r: seq<string>)
    ensures forall t :: t in r <==> InSomeVehicle(vs, t)
  {
    if |vs| == 0 then []
    else
      var r := Concat(vs[..|vs| - 1]) + vs[|vs| - 1].1;
      assert forall v :: 0 <= v < |vs| - 1 ==> vs[..|vs| - 1][v] == vs[v];
      r
  }

  /** `getAllScheduleTimes`: a non-empty flat timetable as it is; otherwise
      the per-vehicle times merged, de-duplicated and sorted; otherwise
      nothing. */
  function AllScheduleTimes(schedule: Option<seq<string>>, byVehicle: Option<seq<VehicleTimes>>): (r: seq<string>)
    ensures schedule.Some? && |schedule.value| > 0 ==> r == schedule.value
    ensures (schedule.None? || |schedule.value| == 0) && byVehicle.Some? ==>
              && Lex.StrictlySorted(r)
              && forall t :: t in r <==> InSomeVehicle(byVehicle.value, t)
    ensures (schedule.None? || |schedule.value| == 0) && byVehicle.None? ==> r == []
  {
    if schedule.Some? && |schedule.value| > 0 then schedule.value
    else if byVehicle.Some? then
      var r := Lex.SortUnique(Concat(byVehicle.value));
      assert forall t :: t in r <==> t in Lex.Elems(r);
      r
    else []
  }

  /** The merged timetable does not depend on the order in which the
      vehicles are enumerated, nor on which vehicle runs which departure. */
  lemma MergeOrderIndependent(vs: seq<VehicleTimes>, ws: seq<VehicleTimes>)
    requires forall t :: InSomeVehicle(vs, t) <==> InSomeVehicle(ws, t)
    ensures AllScheduleTimes(None, Some(vs)) == AllScheduleTimes(None, Some(ws))
  {
    assert Lex.Elems(Concat(vs)) == Lex.Elems(Concat(ws));
    Lex.SortUniqueDependsOnlyOnSet(Concat(vs), Concat(ws));
  }

  predicate AllTimes(times: seq<string>)
  {
    forall i :: 0 <= i < |times| ==> IsTime(times[i])
  }

  lemma AllTimesAppend(a: seq<string>, b: seq<string>)
    requires AllTimes(a) && AllTimes(b)
    ensures AllTimes(a + b)
  {
    forall i | 0 <= i < |a + b| ensures IsTime((a + b)[i]) {
      if i >= |a| {
        assert (a + b)[i] == b[i - |a|];
      }
    }
  }

  /** The first position whose time is strictly after `now`. */
  function FirstAfter(times: seq<string>, now: nat): (r: Option<nat>)
    requires AllTimes(times)
    ensures r.Some? ==> r.value < |times| && ParseTime(times[r.value]) > now
    ensures r.Some? ==> forall k :: 0 <= k < r.value ==> ParseTime(times[k]) <= now
    ensures r.None? ==> forall k :: 0 <= k < |times| ==> ParseTime(times[k]) <= now
  {
    if |times| == 0 then None
    else if ParseTime(times[0]) > now then Some(0)
    else match FirstAfter(times[1..], now)
      case None => None
      case Some(i) => Some(i + 1)
  }

  /** `findNextDeparture`: nothing for an empty timetable; otherwise the
      first time strictly after `now`, or the first time of the day when
      every departure has gone (tomorrow's first). */
  function NextDeparture(times: seq<string>, now: nat): (r: Option<string>)
    requires AllTimes(times)
    ensures r.None? <==> |times| == 0
    ensures r.Some? ==> r.value in times
    ensures (exists k :: 0 <= k < |times| && ParseTime(times[k]) > now) ==>
              exists i :: 0 <= i < |times| && r == Some(times[i]) && ParseTime(times[i]) > now &&
                forall k :: 0 <= k < i ==> ParseTime(times[k]) <= now
    ensures |times| > 0 && (forall k :: 0 <= k < |times| ==> ParseTime(times[k]) <= now) ==>
              r == Some(times[0])
  {
    if |times| == 0 then None
    else match FirstAfter(times, now)
      case Some(i) => Some(times[i])
      case None => Some(times[0])
  }

  /** Conversely, an entry after `now` with none before it after `now` is
      the next departure. */
  lemma {:induction false} NextDepartureAt(times: seq<string>, now: nat, i: nat)
    requires AllTimes(times)
    requires i < |times| && ParseTime(times[i]) > now
    requires forall k :: 0 <= k < i ==> ParseTime(times[k]) <= now
    ensures NextDeparture(times, now) == Some(times[i])
  {
    var j :| 0 <= j < |times| && NextDeparture(times, now) == Some(times[j]) && ParseTime(times[j]) > now &&
             forall k :: 0 <= k < j ==> ParseTime(times[k]) <= now;
    assert j == i;
  }

  /** The "tomorrow" label (app.js:579-588): the next departure is today
      exactly when it is strictly after `now`. */
  predicate IsToday(next: string, now: nat)
    requires IsTime(next)
  {
    ParseTime(next) > now
  }

  /** The "tomorrow" label is shown exactly when no departure is left today. */
  lemma TomorrowExactlyWhenNoneLeft(times: seq<string>, now: nat)
    requires AllTimes(times) && |times| > 0
    ensures IsTime(NextDeparture(times, now).value)
    ensures !IsToday(NextDeparture(times, now).value, now) <==>
              forall k :: 0 <= k < |times| ==> ParseTime(times[k]) <= now
  {
    var next := NextDeparture(times, now).value;
    if exists k :: 0 <= k < |times| && ParseTime(times[k]) > now {
      var i :| 0 <= i < |times| && next == times[i] && ParseTime(times[i]) > now;
    }
  }

  /** The label read at `labelNow` for the departure found at `searchNow`,
      with `searchNow <= labelNow`. */
  lemma TwoReads(times: seq<string>, searchNow: nat, labelNow: nat)
    requires AllTimes(times) && |times| > 0 && searchNow <= labelNow
    ensures IsTime(NextDeparture(times, searchNow).value)
    ensures (forall k :: 0 <= k < |times| ==> ParseTime(times[k]) <= searchNow) ==>
              !IsToday(NextDeparture(times, searchNow).value, labelNow)
    ensures IsToday(NextDeparture(times, searchNow).value, labelNow) ==>
              NextDeparture(times, labelNow) == NextDeparture(times, searchNow)
  {
    var next := NextDeparture(times, searchNow).value;
    TomorrowExactlyWhenNoneLeft(times, searchNow);
    if IsToday(next, labelNow) {
      var i :| 0 <= i < |times| && next == times[i] && ParseTime(times[i]) > searchNow &&
               forall k :: 0 <= k < i ==> ParseTime(times[k]) <= searchNow;
      NextDepartureAt(times, labelNow, i);
    }
  }

  /** On a merged `HH:MM` timetable the next departure today is the
      earliest time strictly after `now`. */
  lemma NextIsEarliestLater(times: seq<string>, now: nat, i: nat)
    requires AllTimes(times) && forall k :: 0 <= k < |times| ==> IsClock(times[k])
    requires Lex.StrictlySorted(times)
    requires i < |times| && ParseTime(times[i]) > now
    ensures ParseTime(NextDeparture(times, now).value) > now
    ensures ParseTime(NextDeparture(times, now).value) <= ParseTime(times[i])
  {
    var j := FirstAfter(times, now).value;
    assert NextDeparture(times, now) == Some(times[j]);
    if j < i {
      ClockOrder(times[j], times[i]);
    }
  }
}

=== FILE: wrappers.dfy ===
/** A value that may be absent, standing for the application's `null`. */
module Wrappers {

  datatype Option<+T> = None | Some(value: T)
}
